=== FILE: README.md ===
# Login proxy: session-cookie rules in Dafny

This project models the decision logic of a small Express proxy
(`api/junaidpk.js`). The proxy logs in to a third-party web panel by scraping
its login form. It keeps the resulting session cookie, and it passes two read
requests through to the panel. Network, file system and HTML parsing are
abstracted away. What remains is modelled as pure functions over immutable
values:

- **Cookie masking** (`CookieStore`). `maskCookie` redacts a `name=value; …`
  string for display. `loadCookie` reads the cookie file back at start-up.
- **Form map and credential detection** (`FormFields`). The handler builds an
  ordered name→value map from the login form's inputs. It picks the first key
  matching `/user|login|email/i` and the first matching `/pass|pwd/i`, then
  overwrites just those two fields.
- **Cookie harvest** (`CookieHarvest`). The handler collects the `Set-Cookie`
  headers of the login POST. It follows at most one 3xx redirect, and only
  when the POST set no cookie. It keeps the text before each header's first
  `;` and joins the pieces with `"; "`.
- **Login handler** (`LoginFlow`). This composes the three steps above
  against a panel oracle: the page's inputs, the answer to a POST of a given
  form, and the answer to a redirect GET.
- **Read endpoints** (`Proxy`). `/fetch-numbers` and `/fetch-sms` answer
  "Login required" without any request when the stored cookie is falsy.
  Otherwise they pass the panel's body through.
- **Session state** (`Server`). The stored cookie is an `Option<string>`
  across a sequence of requests. Only a successful login overwrites it.

Shared string operations are in `Strings`. They cover JavaScript `split` with
a one-character separator, `join`, `slice`, `trim` and case-insensitive
search. `Options` holds the option type and the outcome of one request.

Some behaviour worth knowing:

- **Masking.** `maskCookie` destructures `p.split("=")`, so only the text
  between the first `=` and any second `=` counts as the value. When that
  value is non-empty, anything after a second `=` is dropped. When it is
  empty (`sid==secret`), the whole segment is shown unmasked, including the
  text after the second `=`.
- **Empty values.** A segment with an empty value is shown unchanged, and so
  is a segment without `=`.
- **Double spaces.** The segments of a `"; "`-joined cookie keep their
  leading space, and `maskCookie` joins them again with `"; "`. So every
  masked segment after the first starts with two spaces after the `;`
  (`CookieStore.MaskKeepsSegments`).
- **Empty cookie.** A login whose only `Set-Cookie` header has nothing before
  its first `;` reports success. But it stores the empty string, which both
  read endpoints treat as "no session" (`CookieHarvest.EmptySessionCookie`,
  `Server.EmptyCookieLogin`).
- **Case-insensitive matching.** The regular expressions carry `i` but not
  `u`. Their case-insensitive comparison never equates a character above
  U+007F with an ASCII letter. So for these all-ASCII patterns, ASCII case
  folding (`Strings.Lower`) is exact, not an approximation.

## Model

| member | source | states |
|---|---|---|
| Strings.JoinSplit | api/junaidpk.js:48-52 | splitting a string on a character and joining the pieces with that character gives the string back |
| Strings.SplitJoin | api/junaidpk.js:159 | splitting a join of separator-free pieces gives back exactly those pieces; `Split` and `Join` are inverses |
| Strings.SplitJoinPadded | api/junaidpk.js:52 | a `"; "`-join of `;`-free pieces splits on `;` into one piece per original piece, in order, each later one with a leading space |
| Strings.BeforeFirst | api/junaidpk.js:159 | `s.split(";")[0]` is the prefix of `s` before its first `;` (all of `s` when there is none) and holds no `;` |
| Strings.ContainsIgnoringCaseIff | api/junaidpk.js:102-103 | the left-to-right search reports a lower-case pattern exactly when it occurs somewhere in the name, ignoring ASCII case |
| Strings.Trim | api/junaidpk.js:36 | `trim()` yields an infix with no JavaScript whitespace at either end, and everything outside it is whitespace |
| Strings.TrimmedAfterBothEnds | api/junaidpk.js:36 | dropping the leading and then the trailing whitespace leaves the infix that starts right after the leading whitespace, with only whitespace after it |
| Strings.TrimIdempotent | api/junaidpk.js:36 | trimming a trimmed cookie changes nothing |
| CookieStore.Load | api/junaidpk.js:33-40 | a present file yields a session, a missing or unreadable one yields `null`; the session is the file text with the surrounding whitespace removed |
| CookieStore.SaveLoadRoundTrip | api/junaidpk.js:42-44 | a saved cookie is restored unchanged at the next start-up exactly when it has no whitespace at either end |
| CookieStore.Mask | api/junaidpk.js:46-47 | the display is `null` exactly when the cookie is `null` or empty |
| CookieStore.MaskSegment | api/junaidpk.js:49-51 | a masked segment holds only characters of the original segment and `*`, so masking never introduces a `;` |
| CookieStore.MaskSegmentWithoutEquals | api/junaidpk.js:49-50 | a segment with no `=` is shown unchanged |
| CookieStore.MaskSegmentOfPair | api/junaidpk.js:49-51 | a segment `k=v…` (no `=` in `k` or `v`, remainder empty or starting at a second `=`) is shown unchanged when `v` is empty, otherwise as `k=****` plus the last at most four characters of `v` |
| CookieStore.MaskKeepsSegments | api/junaidpk.js:48-52 | the masked cookie has as many `;`-separated segments as the cookie; segment i is the masked segment i, with a leading space for i > 0 |
| FormFields.Keys | api/junaidpk.js:109 | `Object.keys` lists the map's entry names in entry order |
| FormFields.Lookup | api/junaidpk.js:114-115 | a key has a value exactly when it is a key of the map |
| FormFields.LookupEntry | api/junaidpk.js:98 | in a map with unique keys, each entry's name looks up that entry's value |
| FormFields.PutKeys | api/junaidpk.js:98 | assigning to an existing key keeps the keys and their order; assigning to a new key appends it |
| FormFields.PutLookup | api/junaidpk.js:98 | after an assignment the key holds the new value and every other key its old one |
| FormFields.PutUnique | api/junaidpk.js:98 | assignment keeps the keys unique |
| FormFields.Build | api/junaidpk.js:94-99 | the scraped map has unique keys |
| FormFields.BuildKeys | api/junaidpk.js:94-99 | the keys are exactly the non-empty input names, ordered by first occurrence; a later duplicate does not move its key |
| FormFields.BuildHasKey | api/junaidpk.js:96-98 | a name has an entry exactly when some input carries it as a non-empty `name` |
| FormFields.BuildValue | api/junaidpk.js:97-98 | the entry holds the value of the last input with that name, `""` when its `value` is absent |
| FormFields.FirstUse | api/junaidpk.js:95 | the position of the first input carrying a name: no earlier input carries it |
| FormFields.FindFirst | api/junaidpk.js:102-103 | `find` returns nothing exactly when no key matches; otherwise it returns the first matching key |
| FormFields.Detect | api/junaidpk.js:102-111 | detection fails exactly when no key matches the user pattern or none matches the password pattern, and then reports exactly the found keys; otherwise both fields are the first matches |
| FormFields.Inject | api/junaidpk.js:113-115 | injection keeps the keys, stores the password in the password field and the user name in a distinct user field, and leaves every other field unchanged |
| FormFields.Prepare | api/junaidpk.js:94-117 | the form is rejected exactly when detection fails, listing the scraped keys; otherwise it is the scraped map with the first matches injected |
| CookieHarvest.CookiePairs | api/junaidpk.js:159 | one pair per header, in order; each pair is the header's prefix before its first `;` |
| CookieHarvest.SessionCookiePieces | api/junaidpk.js:159 | the final cookie splits on `;` into one piece per header, in header order |
| CookieHarvest.RedirectTarget | api/junaidpk.js:139-143 | the redirect is taken exactly when the POST set no cookie, its status is in [300, 400) and its `Location` is non-empty |
| CookieHarvest.HarvestCookie | api/junaidpk.js:130-159 | POST cookies are used directly; one redirect hop uses the target's cookies whatever its own status; a thrown redirect GET is reported with the error it threw; otherwise failure whose sample is exactly the first 800 characters of the POST body |
| CookieHarvest.EmptySessionCookie | api/junaidpk.js:159 | the joined cookie is empty exactly when there is one header and it has nothing before its first `;` |
| CookieHarvest.HarvestConsultsOnlyTarget | api/junaidpk.js:139-153 | the redirect GET is issued at most once and only to the POST's `Location` |
| CookieHarvest.ObtainedFromHeaders | api/junaidpk.js:130-159 | an obtained cookie is built from the POST's headers or from the single redirect target's |
| LoginFlow.Credential | api/junaidpk.js:80-81 | a missing or empty request credential falls back to the configured one |
| LoginFlow.Attempt | api/junaidpk.js:79-172 | a failed page GET ends in the caught error; the fields-not-found failure happens exactly when either pattern matches no scraped key, and lists exactly those keys |
| LoginFlow.AfterPost | api/junaidpk.js:119-171 | a thrown POST or redirect GET, and only that, ends in the caught error; cookies set by the POST give success with their pairs; success exactly when the harvest obtains a cookie, with that cookie; "no cookie" exactly when the harvest finds none, with the first 800 characters of the POST body |
| LoginFlow.Login | api/junaidpk.js:155-168 | the session is overwritten with the new cookie on success only, and is unchanged on every failure; the outcome does not depend on the stored session |
| LoginFlow.FieldsNotFoundPostsNothing | api/junaidpk.js:102-111 | undetected fields give the failure listing exactly the form's keys; the session is kept and no POST is made |
| LoginFlow.PostedForm | api/junaidpk.js:113-128 | with fields detected, the handler posts the scraped map with the first user-like and first password-like field overwritten by the credentials, and continues from the answer to that POST alone |
| Proxy.CookieHeader | api/junaidpk.js:186-200 | no request is made exactly when the stored cookie is falsy; otherwise the request carries the stored cookie |
| Proxy.ProxyFetch | api/junaidpk.js:185-243 | "Login required" exactly when the stored cookie is falsy; otherwise the panel's body verbatim, or the thrown error |
| Proxy.ProxyAsksOnlyWithCookie | api/junaidpk.js:214-238 | the reply depends on the panel only through one request carrying the stored cookie, and on nothing without a session |
| Server.Step | api/junaidpk.js:161-241 | only a login changes the session; a login answers its outcome and, on success only, the masked new cookie; `/session` shows the masked cookie; a fetch answers "Login required" exactly when the session is falsy, and otherwise the panel's body or the thrown error; the status is 500 exactly for a login that threw, 401 exactly for one that got no cookie, 200 otherwise |
| Server.RunKeepsLastLogin | api/junaidpk.js:161 | after any sequence of requests the session is the cookie of the last successful login, or the start-up session if none succeeded |
| Server.StartupSessionPersists | api/junaidpk.js:28 | the session loaded at start-up stays until a login succeeds |
| Server.EmptyPairSubmits | api/junaidpk.js:94-117 | a form with inputs named `user` and `pass` has both fields detected, so it is posted |
| Server.EmptyCookieLogin | api/junaidpk.js:161-216 | that login is answered as a success with a `null` display, after which `/fetch-sms` answers "Login required" |
| Server.EmptyPairCookie | api/junaidpk.js:159 | the single header `"; Path=/"` yields the empty cookie |
| Server.EmptyPairAttempt | api/junaidpk.js:83-159 | against a form with `user` and `pass` inputs whose POST sets only `"; Path=/"`, the login attempt succeeds with the empty cookie |

## Left out

- The Express app, route wiring, JSON body parsing and `app.listen` are plumbing. Requests and replies are modelled as datatypes (`Server.Request`, `Server.Reply`).
- `safeFetch` and `timeoutSignal` (the abort timer) are network I/O. Every request's outcome is an oracle value, and a timeout or connection error is a `Failed(description)`.
- `loadCookie`'s file access is I/O. The file is an `Option<string>`, where a missing or unreadable file is `None`. `saveCookie`'s write and the logging of its error are not modelled. Only the load-after-save round trip is stated.
- HTML parsing with cheerio is a foreign library. The login page is the list of its first form's inputs, each with its optional `name` and `value` attributes. A page without a form is the empty list.
- `querystring.stringify` is library encoding. The posted form is the field map itself.
- `new URL(location, PANEL_HOST)` is library URL resolution. The redirect oracle receives the raw `Location`, and an unparsable one shows up as a `Failed` outcome.
- `headers.raw()` and `headers.get("set-cookie")` are both abstracted as a list of `Set-Cookie` strings. A response object without `headers.raw` takes the `get` branch, which returns all `Set-Cookie` values combined with `", "`. That is a one-element list here, so everything before the first `;` of the combined string survives: the first pair, plus any later ones while the earlier values carry no attributes.
- The `msg` and `ok` texts of the JSON replies are not modelled. A reply is its outcome constructor and its HTTP status (`Server.Reply.Status`).
- A failure of `loginPost.text()` is not modelled: the POST body is a plain string.
- The downstream URLs and their query parameters are constant text, and the date in `/fetch-sms` depends on the clock. Each endpoint is an oracle from the `Cookie` header to the answer. The request headers are not modelled: the downstream `User-Agent` and `Accept`, the login POST's `Content-Type` and `User-Agent`, and the redirect GET's `User-Agent` and `Referer`.
- JavaScript orders integer-like object keys (such as `"0"`) before the others in `Object.keys`, and assigning to a key named `__proto__` sets the prototype. Both are engine details. The map is a plain insertion-ordered list.
- JavaScript strings are UTF-16. `slice(-4)` and `slice(0, 800)` count code units, while the model counts Unicode scalar values. The two differ only for characters outside the Basic Multilingual Plane.
- A `/login` request without a body is modelled as both credentials absent, so the configured ones are used. Whether `req.body` exists then depends on the body-parser version; where it is `undefined`, reading `req.body.user` throws outside the `try`.
- Request credentials that are not strings (a JSON number, say) are not modelled. A credential is an optional string.
- `Server.Step` keeps the request order of a single-threaded server. Interleavings of concurrent requests across `await` points are not modelled.

=== FILE: cookie_harvest.dfy ===
/** Turning the answer to the login POST into a session cookie: collect the
    `Set-Cookie` headers, follow one redirect when the POST set none, and
    keep the `name=value` part of each header. */
module CookieHarvest {
  import opened Options
  import opened Strings

  /** What the proxy reads from a panel response: the status code, the
      `Location` header if any, the `Set-Cookie` header values in order, and
      the body text. */
  datatype Response = Response(status: int, location: Option<string>, setCookies: seq<string>, body: string)

  /** At most this many characters of the POST body go into a failure. */
  const SampleLimit := 800

  /** `rawCookies.map(s => s.split(";")[0])`: for each header, in order, the
      text before its first `;` (the attributes `Path`, `Expires`, … are
      dropped). */
  function CookiePairs(headers: seq<string>): (pairs: seq<string>)
    ensures |pairs| == |headers|
    ensures forall i :: 0 <= i < |headers| ==>
              && pairs[i] <= headers[i]
              && ';' !in pairs[i]
              && (|pairs[i]| == |headers[i]| || headers[i][|pairs[i]|] == ';')
  {
    seq(|headers|, i requires 0 <= i < |headers| => BeforeFirst(headers[i], ';'))
  }

  /** `finalCookie`: the pairs joined with `"; "`. */
  function SessionCookieOf(headers: seq<string>): string
  {
    Join(CookiePairs(headers), "; ")
  }

  /** The session cookie holds one `;`-separated piece per header, in header
      order: the `name=value` part of the first header, then a space and the
      `name=value` part of each later one. */
  lemma SessionCookiePieces(headers: seq<string>)
    requires |headers| >= 1
    ensures |Split(SessionCookieOf(headers), ';')| == |headers|
    ensures forall i :: 0 <= i < |headers| ==>
              Split(SessionCookieOf(headers), ';')[i] ==
                (if i == 0 then "" else " ") + BeforeFirst(headers[i], ';')
  {
    assert "; " == [';'] + " ";
    SplitJoinPadded(CookiePairs(headers), ';', " ");
  }

  /** The session cookie is empty exactly when there is a single header and
      it has nothing before its first `;` (as in `"; Path=/"`): with two or
      more headers the `"; "` between their pairs is always there. */
  lemma EmptySessionCookie(headers: seq<string>)
    requires |headers| >= 1
    ensures SessionCookieOf(headers) == "" <==>
              |headers| == 1 && BeforeFirst(headers[0], ';') == ""
  {
    var pairs := CookiePairs(headers);
    if |headers| > 1 {
      assert SessionCookieOf(headers) == pairs[0] + "; " + Join(pairs[1..], "; ");
    }
  }

  /** Where the one redirect goes, if it is taken: only when the POST set no
      cookie, answered with a 3xx status, and carried a non-empty `Location`. */
  function RedirectTarget(post: Response): (loc: Option<string>)
    ensures loc.Some? <==>
              && |post.setCookies| == 0
              && 300 <= post.status < 400
              && post.location.Some? && post.location.value != ""
    ensures loc.Some? ==> post.location == loc
  {
    if |post.setCookies| == 0 && 300 <= post.status < 400 &&
       post.location.Some? && post.location.value != ""
    then post.location
    else None
  }

  /** The `Set-Cookie` headers the handler ends up with: the POST's own, or
      those of the single redirect target, or none. `follow` answers the GET
      to a `Location` (the URL resolution against the panel host included);
      a thrown error propagates. */
  function CollectCookies(post: Response, follow: string -> Fetch<Response>): Fetch<seq<string>>
  {
    match RedirectTarget(post)
    case None => Fetched(post.setCookies)
    case Some(loc) =>
      match follow(loc)
      case Failed(e) => Failed(e)
      case Fetched(target) => Fetched(target.setCookies)
  }

  /** What becomes of the POST's answer. */
  datatype Harvest =
    | Obtained(cookie: string)
    | NoCookie(sample: string)
    | FollowFailed(error: string)

  /** The cookie harvest of the `/login` handler. */
  function HarvestCookie(post: Response, follow: string -> Fetch<Response>): (h: Harvest)
    // Cookies set directly by the POST are used, and no redirect is taken.
    ensures |post.setCookies| > 0 ==> h == Obtained(SessionCookieOf(post.setCookies))
    // Without a redirect to take, no cookie means failure.
    ensures |post.setCookies| == 0 && RedirectTarget(post).None? ==> h.NoCookie?
    // The one hop: the redirect target's cookies, whatever its own status
    // and `Location` say.
    ensures RedirectTarget(post).Some? && follow(RedirectTarget(post).value).Fetched? ==>
              var target := follow(RedirectTarget(post).value).value;
              h == if |target.setCookies| > 0 then Obtained(SessionCookieOf(target.setCookies))
                   else NoCookie(Take(post.body, SampleLimit))
    ensures h.FollowFailed? <==>
              RedirectTarget(post).Some? && follow(RedirectTarget(post).value).Failed?
    // and it reports the error that GET threw
    ensures h.FollowFailed? ==> h.error == follow(RedirectTarget(post).value).error
    // The failure sample is the POST body cut to its first 800 characters:
    // a prefix of it, the whole body when it is that short.
    ensures h.NoCookie? ==> h.sample == Take(post.body, SampleLimit)
    ensures h.NoCookie? ==> h.sample <= post.body && |h.sample| <= SampleLimit
    ensures h.NoCookie? && |post.body| <= SampleLimit ==> h.sample == post.body
  {
    match CollectCookies(post, follow)
    case Failed(e) => FollowFailed(e)
    case Fetched(headers) =>
      if |headers| == 0 then NoCookie(Take(post.body, SampleLimit))
      else Obtained(SessionCookieOf(headers))
  }

  /** The redirect is consulted only when it is taken, and only at its
      `Location`: two panels that answer that one GET alike (or that differ
      only in GETs the handler never issues) lead to the same harvest. */
  lemma HarvestConsultsOnlyTarget(post: Response, f1: string -> Fetch<Response>, f2: string -> Fetch<Response>)
    requires RedirectTarget(post).Some? ==>
               f1(RedirectTarget(post).value) == f2(RedirectTarget(post).value)
    ensures HarvestCookie(post, f1) == HarvestCookie(post, f2)
  {
  }

  /** A harvested cookie always comes from a non-empty list of headers: the
      POST's own, or the redirect target's. */
  lemma ObtainedFromHeaders(post: Response, follow: string -> Fetch<Response>)
    requires HarvestCookie(post, follow).Obtained?
    ensures
      || (|post.setCookies| > 0 &&
          HarvestCookie(post, follow).cookie == SessionCookieOf(post.setCookies))
      || (RedirectTarget(post).Some? &&
          follow(RedirectTarget(post).value).Fetched? &&
          |follow(RedirectTarget(post).value).value.setCookies| > 0 &&
          HarvestCookie(post, follow).cookie ==
            SessionCookieOf(follow(RedirectTarget(post).value).value.setCookies))
  {
  }
}

=== FILE: cookie_store.dfy ===
/** The session-cookie store: the one piece of state the proxy keeps
    (`savedCookie`), how it is read back from the cookie file at start-up,
    and how it is masked for display. */
module CookieStore {
  import opened Options
  import opened Strings

  /** The cached session cookie: `null` at start-up unless the cookie file
      was read, otherwise the last stored string. */
  type Session = Option<string>

  /** JavaScript falsiness of the cached cookie: `null` and `""` both count
      as "no session". */
  predicate IsEmpty(s: Session)
  {
    s.None? || s.value == ""
  }

  /** `loadCookie()`: `file` is the cookie file's text, or `None` when the
      file is missing or cannot be read (the error is swallowed). A present
      file yields its contents with surrounding whitespace removed. */
  function Load(file: Option<string>): (s: Session)
    ensures s.Some? <==> file.Some?
    ensures s.Some? ==> IsTrimmed(s.value)
    ensures s.Some? ==> exists i: nat :: TrimmedAt(file.value, s.value, i)
  {
    match file
    case None => None
    case Some(text) => Some(Trim(text))
  }

  /** `saveCookie` followed by `loadCookie` at the next start-up restores a
      cookie that has no whitespace at either end, and only such a cookie. */
  lemma SaveLoadRoundTrip(cookie: string)
    ensures Load(Some(cookie)) == Some(cookie) <==> IsTrimmed(cookie)
  {
  }

  /** The marker that replaces the hidden part of a cookie value. */
  const Stars := "****"

  /** How many trailing characters of a value stay visible. */
  const Visible := 4

  /** The `map` callback of `maskCookie` for one `;`-separated segment `p`:
      destructure `p.split("=")` into `[k, v]`; a missing or empty `v`
      leaves `p` as it is, otherwise the segment becomes `k=****` followed by
      `v.slice(-4)`. */
  function MaskSegment(p: string): (r: string)
    ensures forall ch :: ch in r ==> ch in p || ch == '*'
  {
    var kv := Split(p, '=');
    if |kv| < 2 || kv[1] == "" then p
    else
      MaskedPairChars(p, kv[0], kv[1]);
      kv[0] + "=" + Stars + TakeLast(kv[1], Visible)
  }

  lemma MaskedPairChars(p: string, k: string, v: string)
    requires |Split(p, '=')| >= 2 && k == Split(p, '=')[0] && v == Split(p, '=')[1]
    ensures forall ch :: ch in k + "=" + Stars + TakeLast(v, Visible) ==> ch in p || ch == '*'
  {
  }

  /** A segment without `=` is shown as it is. */
  lemma MaskSegmentWithoutEquals(p: string)
    requires '=' !in p
    ensures MaskSegment(p) == p
  {
  }

  /** The meaning of the destructuring: a segment `k=v…` whose name `k` and
      value `v` hold no `=`, and whose remainder `tail` is empty or starts
      at a second `=`, is shown unchanged when `v` is empty, and otherwise as
      `k=****` followed by the last (at most four) characters of `v`; the
      remainder after a second `=` is dropped. Every segment holding an `=`
      decomposes this way. */
  lemma MaskSegmentOfPair(k: string, v: string, tail: string)
    requires '=' !in k && '=' !in v
    requires tail == "" || tail[0] == '='
    ensures MaskSegment(k + "=" + v + tail) ==
              if v == "" then k + "=" + v + tail
              else k + "=****" + TakeLast(v, 4)
  {
    var p := k + "=" + v + tail;
    assert p == k + ['='] + (v + tail);
    SplitAfterFirst(k, v + tail, '=');
    BeforeFirstOfPiece(v, tail, '=');
    assert Split(p, '=')[1] == v;
  }

  /** `maskCookie(c)`: `null` for a missing or empty cookie; otherwise the
      segments of `c.split(";")`, each masked, joined with `"; "`. */
  function Mask(c: Session): (r: Option<string>)
    ensures r.None? <==> IsEmpty(c)
  {
    if IsEmpty(c) then None
    else Some(Join(MaskSegments(Split(c.value, ';')), "; "))
  }

  /** The segments masked one by one, in order. */
  function MaskSegments(ps: seq<string>): (rs: seq<string>)
    ensures |rs| == |ps|
    ensures forall k :: 0 <= k < |ps| ==> rs[k] == MaskSegment(ps[k])
  {
    seq(|ps|, k requires 0 <= k < |ps| => MaskSegment(ps[k]))
  }

  /** Reading the masked cookie back on `;` gives exactly one segment per
      segment of the cookie, in order: the first is the masked first
      segment, each later one is a space followed by the masked segment
      (the segments keep their own leading space from the `"; "` joins and
      `maskCookie` adds another one). */
  lemma MaskKeepsSegments(c: string)
    requires c != ""
    ensures Mask(Some(c)).Some?
    ensures |Split(Mask(Some(c)).value, ';')| == |Split(c, ';')|
    ensures forall k :: 0 <= k < |Split(c, ';')| ==>
              Split(Mask(Some(c)).value, ';')[k] ==
                (if k == 0 then "" else " ") + MaskSegment(Split(c, ';')[k])
  {
    var ps := Split(c, ';');
    var ms := MaskSegments(ps);
    forall k | 0 <= k < |ms|
      ensures ';' !in ms[k]
    {
      assert ';' !in ps[k];
    }
    assert "; " == [';'] + " ";
    SplitJoinPadded(ms, ';', " ");
  }
}

=== FILE: form_fields.dfy ===
/** The login-form heuristic of the `/login` handler: collect the `<input>`
    elements of the page's first form into an ordered name-to-value map,
    guess which field takes the user name and which the password by name
    pattern, and overwrite just those two with the credentials. HTML parsing
    is not modelled: the form arrives as the list of its inputs' `name` and
    `value` attributes. */
module FormFields {
  import opened Options
  import opened Strings

  /** One `<input>` element: its `name` and `value` attributes, each possibly
      absent. */
  datatype Input = Input(name: Option<string>, value: Option<string>)

  /** One entry of the `inputs` object. */
  datatype Field = Field(name: string, value: string)

  /** The `inputs` object: its entries in key order. */
  type FormMap = seq<Field>

  /** `Object.keys(inputs)`. */
  function Keys(m: FormMap): (ks: seq<string>)
    ensures |ks| == |m|
    ensures forall i :: 0 <= i < |m| ==> ks[i] == m[i].name
  {
    if |m| == 0 then [] else [m[0].name] + Keys(m[1..])
  }

  /** No key occurs twice, as in any JavaScript object. */
  predicate UniqueKeys(m: FormMap)
  {
    forall i, j :: 0 <= i < j < |m| ==> m[i].name != m[j].name
  }

  /** `inputs[k]`, `None` standing for `undefined`. */
  function Lookup(m: FormMap, k: string): (r: Option<string>)
    ensures r.Some? <==> k in Keys(m)
  {
    if |m| == 0 then None
    else if m[0].name == k then Some(m[0].value)
    else
      assert Keys(m) == [m[0].name] + Keys(m[1..]);
      Lookup(m[1..], k)
  }

  /** In a map with unique keys, the value of a key is the one its entry
      holds. */
  lemma {:induction false} LookupEntry(m: FormMap, i: nat)
    requires i < |m| && UniqueKeys(m)
    ensures Lookup(m, m[i].name) == Some(m[i].value)
  {
    if i > 0 {
      assert m[0].name != m[i].name;
      assert UniqueKeys(m[1..]) by {
        forall a, b | 0 <= a < b < |m[1..]|
          ensures m[1..][a].name != m[1..][b].name
        {
          assert m[1..][a] == m[a + 1] && m[1..][b] == m[b + 1];
        }
      }
      LookupEntry(m[1..], i - 1);
    }
  }

  /** `inputs[k] = v`. */
  function Put(m: FormMap, k: string, v: string): FormMap
  {
    if |m| == 0 then [Field(k, v)]
    else if m[0].name == k then [Field(k, v)] + m[1..]
    else [m[0]] + Put(m[1..], k, v)
  }

  /** Assigning to an existing key keeps the keys and their order;
      assigning to a new key adds it at the end. */
  lemma {:induction false} PutKeys(m: FormMap, k: string, v: string)
    ensures k in Keys(m) ==> Keys(Put(m, k, v)) == Keys(m)
    ensures k !in Keys(m) ==> Keys(Put(m, k, v)) == Keys(m) + [k]
  {
    if |m| > 0 {
      var r := Put(m, k, v);
      assert Keys(m) == [m[0].name] + Keys(m[1..]);
      if m[0].name == k {
        assert r[1..] == m[1..];
      } else {
        PutKeys(m[1..], k, v);
        assert r[1..] == Put(m[1..], k, v);
      }
    }
  }

  /** After `inputs[k] = v`, `k` holds `v` and every other key holds what it
      held before. */
  lemma {:induction false} PutLookup(m: FormMap, k: string, v: string, j: string)
    ensures Lookup(Put(m, k, v), j) == if j == k then Some(v) else Lookup(m, j)
  {
    if |m| > 0 {
      var r := Put(m, k, v);
      if m[0].name == k {
        assert r[1..] == m[1..];
      } else {
        PutLookup(m[1..], k, v, j);
        assert r[1..] == Put(m[1..], k, v);
      }
    }
  }

  /** Assignment keeps the keys unique. */
  lemma PutUnique(m: FormMap, k: string, v: string)
    requires UniqueKeys(m)
    ensures UniqueKeys(Put(m, k, v))
  {
    var r := Put(m, k, v);
    PutKeys(m, k, v);
    assert Keys(r) == Keys(m) || Keys(r) == Keys(m) + [k];
    forall i, j | 0 <= i < j < |r|
      ensures r[i].name != r[j].name
    {
      assert Keys(r)[i] == r[i].name && Keys(r)[j] == r[j].name;
      if j < |m| {
        assert Keys(m)[i] == m[i].name && Keys(m)[j] == m[j].name;
      } else {
        assert Keys(m)[i] == m[i].name;
      }
    }
  }

  // ---------------------------------------------------------------------
  // Building the map
  // ---------------------------------------------------------------------

  /** The input is recorded under the key `k`: its `name` attribute is
      present, non-empty (the `if (name)` test) and equal to `k`. */
  predicate Names(input: Input, k: string)
  {
    input.name == Some(k) && k != ""
  }

  /** The value recorded for an input: `attr("value") || ""`. */
  function ValueOf(input: Input): (v: string)
    ensures input.value.Some? ==> v == input.value.value
    ensures input.value.None? ==> v == ""
  {
    input.value.GetOr("")
  }

  /** The `.each` callback for one input. */
  function Record(m: FormMap, input: Input): FormMap
  {
    if input.name.Some? && input.name.value != "" then Put(m, input.name.value, ValueOf(input))
    else m
  }

  /** The map after visiting the inputs in document order. */
  function Build(inputs: seq<Input>): (m: FormMap)
    ensures UniqueKeys(m)
  {
    if |inputs| == 0 then []
    else
      var m0, x := Build(inputs[..|inputs| - 1]), inputs[|inputs| - 1];
      if x.name.Some? && x.name.value != "" then
        PutUnique(m0, x.name.value, ValueOf(x));
        Record(m0, x)
      else Record(m0, x)
  }

  /** Position of the first input recorded under `k`, or `|inputs|` when
      there is none. */
  function FirstUse(inputs: seq<Input>, k: string): (i: nat)
    ensures i <= |inputs|
    ensures forall j :: 0 <= j < i ==> !Names(inputs[j], k)
    ensures i < |inputs| ==> Names(inputs[i], k)
  {
    if |inputs| == 0 then 0
    else if Names(inputs[0], k) then 0
    else FirstUse(inputs[1..], k) + 1
  }

  /** The characterisation of `FirstUse` pins it down. */
  lemma FirstUseUnique(inputs: seq<Input>, k: string, i: nat)
    requires i <= |inputs|
    requires forall j :: 0 <= j < i ==> !Names(inputs[j], k)
    requires i < |inputs| ==> Names(inputs[i], k)
    ensures FirstUse(inputs, k) == i
  {
  }

  /** Appending an input leaves the first use of an already used name alone,
      and a name first used by the new input is first used at its position. */
  lemma FirstUseAppend(pre: seq<Input>, x: Input, k: string)
    ensures FirstUse(pre, k) < |pre| ==> FirstUse(pre + [x], k) == FirstUse(pre, k)
    ensures FirstUse(pre, k) == |pre| && Names(x, k) ==> FirstUse(pre + [x], k) == |pre|
    ensures FirstUse(pre, k) == |pre| && !Names(x, k) ==> FirstUse(pre + [x], k) == |pre| + 1
  {
    var ins := pre + [x];
    var f := FirstUse(pre, k);
    assert forall j :: 0 <= j < |pre| ==> ins[j] == pre[j];
    if f < |pre| || Names(x, k) {
      FirstUseUnique(ins, k, f);
    } else {
      FirstUseUnique(ins, k, |ins|);
    }
  }

  /** The keys of the built map, in order, are exactly the non-empty names of
      the inputs, each once, ordered by where the name first occurs: a later
      duplicate does not move its key. */
  lemma {:induction false} BuildKeys(inputs: seq<Input>)
    ensures forall k :: k in Keys(Build(inputs)) <==> FirstUse(inputs, k) < |inputs|
    ensures forall a, b :: 0 <= a < b < |Build(inputs)| ==>
              FirstUse(inputs, Build(inputs)[a].name) < FirstUse(inputs, Build(inputs)[b].name)
    decreases |inputs|
  {
    if |inputs| > 0 {
      var n := |inputs| - 1;
      var pre := inputs[..n];
      var x := inputs[n];
      assert inputs == pre + [x];
      BuildKeys(pre);
      var m0 := Build(pre);
      var m := Build(inputs);
      assert Build(inputs) == Record(m0, x);
      RecordKeys(m0, x);
      forall k
        ensures k in Keys(m) <==> FirstUse(inputs, k) < |inputs|
      {
        FirstUseAppend(pre, x, k);
      }
      forall a, b | 0 <= a < b < |m|
        ensures FirstUse(inputs, m[a].name) < FirstUse(inputs, m[b].name)
      {
        var ka, kb := m[a].name, m[b].name;
        FirstUseAppend(pre, x, ka);
        FirstUseAppend(pre, x, kb);
        assert Keys(m)[a] == ka && Keys(m)[b] == kb;
        if b < |m0| {
          assert Keys(m0)[a] == ka && Keys(m0)[b] == kb;
        } else {
          assert Keys(m0)[a] == ka;
          assert kb == x.name.value && Names(x, kb) && kb !in Keys(m0);
        }
      }
    }
  }

  /** A name has an entry exactly when some input is recorded under it. */
  lemma {:induction false} BuildHasKey(inputs: seq<Input>, k: string)
    ensures Lookup(Build(inputs), k).Some? <==> exists i :: 0 <= i < |inputs| && Names(inputs[i], k)
    decreases |inputs|
  {
    if |inputs| > 0 {
      var n := |inputs| - 1;
      var pre, x := inputs[..n], inputs[n];
      BuildHasKey(pre, k);
      RecordLookup(Build(pre), x, k);
      assert Build(inputs) == Record(Build(pre), x);
      if exists i :: 0 <= i < n && Names(pre[i], k) {
        var i :| 0 <= i < n && Names(pre[i], k);
        assert inputs[i] == pre[i];
      }
      if exists i :: 0 <= i < |inputs| && Names(inputs[i], k) {
        var i :| 0 <= i < |inputs| && Names(inputs[i], k);
        if i < n {
          assert pre[i] == inputs[i];
        }
      }
    }
  }

  /** The entry for `k` holds the value of the LAST input recorded under
      `k`: a later duplicate overwrites an earlier one. */
  lemma {:induction false} BuildValue(inputs: seq<Input>, k: string, i: nat)
    requires i < |inputs| && Names(inputs[i], k)
    requires forall j :: i < j < |inputs| ==> !Names(inputs[j], k)
    ensures Lookup(Build(inputs), k) == Some(ValueOf(inputs[i]))
    decreases |inputs|
  {
    var n := |inputs| - 1;
    var pre, x := inputs[..n], inputs[n];
    BuildStep(inputs);
    RecordLookup(Build(pre), x, k);
    if i < n {
      assert !Names(x, k);
      assert pre[i] == inputs[i];
      forall j | i < j < n
        ensures !Names(pre[j], k)
      {
        assert pre[j] == inputs[j];
      }
      BuildValue(pre, k, i);
    }
  }

  /** The map is built input by input, in document order. */
  lemma BuildStep(inputs: seq<Input>)
    requires |inputs| > 0
    ensures Build(inputs) == Record(Build(inputs[..|inputs| - 1]), inputs[|inputs| - 1])
  {
  }

  /** Visiting one input changes at most the entry it is recorded under. */
  lemma RecordLookup(m: FormMap, x: Input, k: string)
    ensures Lookup(Record(m, x), k) == if Names(x, k) then Some(ValueOf(x)) else Lookup(m, k)
  {
    if x.name.Some? && x.name.value != "" {
      PutLookup(m, x.name.value, ValueOf(x), k);
    }
  }

  /** Visiting one input adds its name at the end when the name is new, and
      otherwise leaves the keys as they are. */
  lemma RecordKeys(m: FormMap, x: Input)
    ensures Keys(Record(m, x)) ==
              if x.name.Some? && x.name.value != "" && x.name.value !in Keys(m)
              then Keys(m) + [x.name.value] else Keys(m)
  {
    if x.name.Some? && x.name.value != "" {
      PutKeys(m, x.name.value, ValueOf(x));
    }
  }

  // ---------------------------------------------------------------------
  // Guessing the credential fields
  // ---------------------------------------------------------------------

  /** The alternatives of `/user|login|email/i`. */
  const UserPatterns: seq<string> := ["user", "login", "email"]

  /** The alternatives of `/pass|pwd/i`. */
  const PassPatterns: seq<string> := ["pass", "pwd"]

  /** Some key matches the alternatives. */
  ghost predicate AnyMatches(keys: seq<string>, patterns: seq<string>)
  {
    exists i :: 0 <= i < |keys| && MatchesAny(keys[i], patterns)
  }

  /** `k` is the first of `keys` whose name some alternative matches. */
  ghost predicate IsFirstMatch(keys: seq<string>, patterns: seq<string>, k: string)
  {
    exists i :: 0 <= i < |keys| && keys[i] == k && MatchesAny(k, patterns) &&
      forall j :: 0 <= j < i ==> !MatchesAny(keys[j], patterns)
  }

  /** There is only one first match. */
  lemma FirstMatchUnique(keys: seq<string>, patterns: seq<string>, k1: string, k2: string)
    requires IsFirstMatch(keys, patterns, k1) && IsFirstMatch(keys, patterns, k2)
    ensures k1 == k2
  {
  }

  /** `keys.find(n => re.test(n))`. */
  function FindFirst(keys: seq<string>, patterns: seq<string>): (r: Option<string>)
    ensures r.None? <==> !AnyMatches(keys, patterns)
    ensures r.Some? ==> IsFirstMatch(keys, patterns, r.value)
  {
    if |keys| == 0 then None
    else if MatchesAny(keys[0], patterns) then
      // names the index term that witnesses IsFirstMatch's `exists i`
      assert keys[0] == keys[0];
      Some(keys[0])
    else
      var r := FindFirst(keys[1..], patterns);
      assert forall i :: 1 <= i < |keys| ==> keys[i] == keys[1..][i - 1];
      if r.Some? then
        var i :| 0 <= i < |keys[1..]| && keys[1..][i] == r.value && MatchesAny(r.value, patterns) &&
                 forall j :: 0 <= j < i ==> !MatchesAny(keys[1..][j], patterns);
        assert keys[i + 1] == r.value;
        r
      else r
  }

  /** Outcome of the field guess. */
  datatype Detection =
    | Detected(userField: string, passField: string)
    | Undetected(foundFields: seq<string>)

  /** The field guess of the `/login` handler: the first key matching the
      user pattern and the first matching the password pattern; when either
      is missing, the keys that were found. */
  function Detect(m: FormMap): (d: Detection)
    ensures d.Undetected? <==> !AnyMatches(Keys(m), UserPatterns) || !AnyMatches(Keys(m), PassPatterns)
    ensures d.Undetected? ==> d.foundFields == Keys(m)
    ensures d.Detected? ==> IsFirstMatch(Keys(m), UserPatterns, d.userField)
    ensures d.Detected? ==> IsFirstMatch(Keys(m), PassPatterns, d.passField)
  {
    var u := FindFirst(Keys(m), UserPatterns);
    var p := FindFirst(Keys(m), PassPatterns);
    if u.Some? && p.Some? then Detected(u.value, p.value) else Undetected(Keys(m))
  }

  /** `inputs[userField] = user; inputs[passField] = pass`: both keys are
      already present, so the keys and their order stay; only the two fields
      change, and a key matching both patterns ends up holding the password. */
  function Inject(m: FormMap, userField: string, passField: string, user: string, pass: string): (r: FormMap)
    requires userField in Keys(m) && passField in Keys(m)
    ensures Keys(r) == Keys(m)
    ensures Lookup(r, passField) == Some(pass)
    ensures userField != passField ==> Lookup(r, userField) == Some(user)
    ensures forall k :: k != userField && k != passField ==> Lookup(r, k) == Lookup(m, k)
  {
    var m1 := Put(m, userField, user);
    PutKeys(m, userField, user);
    PutKeys(m1, passField, pass);
    forall k
      ensures Lookup(Put(m1, passField, pass), k) ==
                if k == passField then Some(pass)
                else if k == userField then Some(user)
                else Lookup(m, k)
    {
      PutLookup(m1, passField, pass, k);
      PutLookup(m, userField, user, k);
    }
    Put(m1, passField, pass)
  }

  /** What the handler does with the scraped inputs before posting. */
  datatype Prepared =
    | Submit(form: FormMap)
    | NotDetected(foundFields: seq<string>)

  /** Build the map, guess the fields, and either report the keys found or
      produce the form to post with the credentials injected. */
  function Prepare(inputs: seq<Input>, user: string, pass: string): (p: Prepared)
    ensures p.NotDetected? <==>
              !AnyMatches(Keys(Build(inputs)), UserPatterns) || !AnyMatches(Keys(Build(inputs)), PassPatterns)
    ensures p.NotDetected? ==> p.foundFields == Keys(Build(inputs))
    ensures p.Submit? ==> Keys(p.form) == Keys(Build(inputs))
    ensures p.Submit? ==> exists u, q ::
              && IsFirstMatch(Keys(Build(inputs)), UserPatterns, u)
              && IsFirstMatch(Keys(Build(inputs)), PassPatterns, q)
              && p.form == Inject(Build(inputs), u, q, user, pass)
  {
    var m := Build(inputs);
    match Detect(m)
    case Undetected(found) => NotDetected(found)
    case Detected(u, q) =>
      Submit(Inject(m, u, q, user, pass))
  }
}

=== FILE: login_flow.dfy ===
/** The `/login` handler: fetch the login page, prepare the form, post it,
    harvest the session cookie, and store it on success. The panel is an
    oracle: what it answers to the page GET, to the POST of a given form, and
    to the GET of a redirect `Location`. */
module LoginFlow {
  import opened Options
  import opened Strings
  import opened FormFields
  import opened CookieHarvest
  import opened CookieStore

  /** The configured default credentials (`PANEL_USER`, `PANEL_PASS`). */
  datatype Config = Config(defaultUser: string, defaultPass: string)

  /** The optional `user` and `pass` of the request body. */
  datatype LoginRequest = LoginRequest(user: Option<string>, pass: Option<string>)

  /** The panel's answers: the inputs of the first form of the login page
      (or the error the GET threw), the answer to posting a form, and the
      answer to the GET of a redirect `Location`. */
  datatype Panel = Panel(
    loginPage: Fetch<seq<Input>>,
    post: FormMap -> Fetch<Response>,
    follow: string -> Fetch<Response>)

  /** `req.body.user || PANEL_USER`: a missing or empty value falls back to
      the configured one. */
  function Credential(given: Option<string>, fallback: string): (c: string)
    ensures c == fallback || given == Some(c)
    ensures c == fallback <== given.None? || given.value == ""
    ensures given.Some? && given.value != "" ==> c == given.value
  {
    if given.Some? && given.value != "" then given.value else fallback
  }

  /** How a login attempt ends. */
  datatype LoginOutcome =
    | Success(cookie: string)
    | FieldsNotFound(foundFields: seq<string>)
    | CookieMissing(sample: string)
    | Error(error: string)
  {
    /** The HTTP status of the JSON reply. */
    function Status(): int
    {
      match this
      case Success(_) => 200
      case FieldsNotFound(_) => 200
      case CookieMissing(_) => 401
      case Error(_) => 500
    }
  }

  /** The login attempt, independent of any stored session. */
  function Attempt(cfg: Config, req: LoginRequest, panel: Panel): (r: LoginOutcome)
    // A failed page GET is caught and reported.
    ensures panel.loginPage.Failed? ==> r == Error(panel.loginPage.error)
    // Undetected fields are reported with the scraped keys, before any POST.
    ensures r.FieldsNotFound? <==>
              && panel.loginPage.Fetched?
              && (|| !AnyMatches(Keys(Build(panel.loginPage.value)), UserPatterns)
                  || !AnyMatches(Keys(Build(panel.loginPage.value)), PassPatterns))
    ensures r.FieldsNotFound? ==> r.foundFields == Keys(Build(panel.loginPage.value))
  {
    match panel.loginPage
    case Failed(e) => Error(e)
    case Fetched(inputs) =>
      var user := Credential(req.user, cfg.defaultUser);
      var pass := Credential(req.pass, cfg.defaultPass);
      match Prepare(inputs, user, pass)
      case NotDetected(found) => FieldsNotFound(found)
      case Submit(form) => AfterPost(panel.post(form), panel.follow)
  }

  /** The rest of the attempt once the form is posted: `answer` is the
      panel's answer to the POST, `follow` its answer to a redirect GET. */
  function AfterPost(answer: Fetch<Response>, follow: string -> Fetch<Response>): (r: LoginOutcome)
    ensures !r.FieldsNotFound?
    // A thrown POST or redirect GET is caught and reported.
    ensures answer.Failed? ==> r == Error(answer.error)
    ensures r.Error? <==>
              || answer.Failed?
              || (RedirectTarget(answer.value).Some? &&
                  follow(RedirectTarget(answer.value).value).Failed?)
    ensures answer.Fetched? && RedirectTarget(answer.value).Some? &&
            follow(RedirectTarget(answer.value).value).Failed? ==>
              r == Error(follow(RedirectTarget(answer.value).value).error)
    // Cookies set by the POST itself make a success with their pairs.
    ensures answer.Fetched? && |answer.value.setCookies| > 0 ==>
              r == Success(SessionCookieOf(answer.value.setCookies))
    // Success exactly when the harvest obtains a cookie, and with that cookie.
    ensures r.Success? <==> answer.Fetched? && HarvestCookie(answer.value, follow).Obtained?
    ensures r.Success? ==> r.cookie == HarvestCookie(answer.value, follow).cookie
    // No cookie at all: the reply carries the first 800 characters of the
    // POST body.
    ensures r.CookieMissing? <==> answer.Fetched? && HarvestCookie(answer.value, follow).NoCookie?
    ensures r.CookieMissing? ==> r.sample == Take(answer.value.body, SampleLimit)
  {
    match answer
    case Failed(e) => Error(e)
    case Fetched(response) =>
      match HarvestCookie(response, follow)
      case Obtained(c) => Success(c)
      case NoCookie(sample) => CookieMissing(sample)
      case FollowFailed(e) => Error(e)
  }

  /** The outcome of a login together with the session it leaves behind. */
  datatype LoginResult = LoginResult(outcome: LoginOutcome, session: Session)

  /** `POST /login` against the stored session. */
  function Login(cfg: Config, req: LoginRequest, session: Session, panel: Panel): (res: LoginResult)
    // Only success writes the session, and it overwrites it (never merges).
    ensures res.outcome.Success? ==> res.session == Some(res.outcome.cookie)
    ensures !res.outcome.Success? ==> res.session == session
    // The attempt does not look at the stored session.
    ensures res.outcome == Attempt(cfg, req, panel)
  {
    var outcome := Attempt(cfg, req, panel);
    LoginResult(outcome, if outcome.Success? then Some(outcome.cookie) else session)
  }

  /** The masked cookie the success reply shows. */
  function ShownCookie(res: LoginResult): (shown: Option<string>)
    requires res.outcome.Success?
  {
    Mask(Some(res.outcome.cookie))
  }

  /** When the form has no user-like or no password-like field, the login
      fails listing exactly the keys of the form, leaves the session alone,
      and posts nothing: the panel's answers to a POST or a redirect GET
      make no difference. */
  lemma FieldsNotFoundPostsNothing(cfg: Config, req: LoginRequest, session: Session,
                                   panel: Panel, other: Panel, inputs: seq<Input>)
    requires panel.loginPage == Fetched(inputs) && other.loginPage == Fetched(inputs)
    requires !AnyMatches(Keys(Build(inputs)), UserPatterns) || !AnyMatches(Keys(Build(inputs)), PassPatterns)
    ensures Login(cfg, req, session, panel) == Login(cfg, req, session, other)
    ensures Login(cfg, req, session, panel) == LoginResult(FieldsNotFound(Keys(Build(inputs))), session)
  {
    var user := Credential(req.user, cfg.defaultUser);
    var pass := Credential(req.pass, cfg.defaultPass);
    assert Prepare(inputs, user, pass).NotDetected?;
  }

  /** When the fields are found, the handler posts the scraped map with the
      first user-like and the first password-like field overwritten by the
      credentials (request values, else the configured ones), and the rest of
      the attempt depends only on the panel's answer to that one POST. */
  lemma PostedForm(cfg: Config, req: LoginRequest, panel: Panel, inputs: seq<Input>, u: string, p: string)
    requires panel.loginPage == Fetched(inputs)
    requires IsFirstMatch(Keys(Build(inputs)), UserPatterns, u)
    requires IsFirstMatch(Keys(Build(inputs)), PassPatterns, p)
    ensures u in Keys(Build(inputs)) && p in Keys(Build(inputs))
    ensures Attempt(cfg, req, panel) ==
              AfterPost(panel.post(Inject(Build(inputs), u, p,
                                          Credential(req.user, cfg.defaultUser),
                                          Credential(req.pass, cfg.defaultPass))),
                        panel.follow)
  {
    var user := Credential(req.user, cfg.defaultUser);
    var pass := Credential(req.pass, cfg.defaultPass);
    var m := Build(inputs);
    assert AnyMatches(Keys(m), UserPatterns) && AnyMatches(Keys(m), PassPatterns);
    var prepared := Prepare(inputs, user, pass);
    assert prepared.Submit?;
    var u', p' :| && IsFirstMatch(Keys(m), UserPatterns, u')
                  && IsFirstMatch(Keys(m), PassPatterns, p')
                  && prepared.form == Inject(m, u', p', user, pass);
    FirstMatchUnique(Keys(m), UserPatterns, u, u');
    FirstMatchUnique(Keys(m), PassPatterns, p, p');
  }
}

=== FILE: options.dfy ===
/** Small wrappers shared by the whole model: an optional value (JavaScript's
    `null`/`undefined` versus a present value) and the outcome of one outbound
    HTTP request (a response, or the error that `fetch` threw: a refused
    connection, a timeout abort, an unparsable URL). */
module Options {

  /** A present value or nothing. */
  datatype Option<+T> = None | Some(value: T) {

    /** The carried value, or `default` when there is none. */
    function GetOr(default: T): T {
      match this
      case Some(v) => v
      case None => default
    }
  }

  /** What an awaited `safeFetch` produced: the value read from the response,
      or the description of the error it threw. */
  datatype Fetch<+T> = Fetched(value: T) | Failed(error: string)
}

=== FILE: proxy.dfy ===
/** The two read endpoints, `/fetch-numbers` and `/fetch-sms`: both guard
    on the stored session, then pass one GET through to the panel carrying
    the stored cookie. The fixed URLs (and the date in the SMS one) are not
    modelled: `downstream` is the panel's answer to that endpoint's GET,
    given the `Cookie` header it carries. */
module Proxy {
  import opened Options
  import opened CookieStore

  /** What an endpoint replies. */
  datatype ProxyReply =
    | LoginRequired          // {ok:false, msg:"Login required"}
    | Passthrough(body: string)
    | ProxyError(error: string)

  /** What an endpoint relays of the panel's answer: its body verbatim, or
      the error its request threw. */
  function Relayed(answer: Fetch<string>): ProxyReply
  {
    match answer
    case Fetched(body) => Passthrough(body)
    case Failed(e) => ProxyError(e)
  }

  /** The `Cookie` header of the downstream request, or `None` when the
      guard stops the handler before any request is made. */
  function CookieHeader(session: Session): (h: Option<string>)
    ensures h.None? <==> IsEmpty(session)
    ensures h.Some? ==> session == h && h.value != ""
  {
    if IsEmpty(session) then None else session
  }

  /** One read endpoint. */
  function ProxyFetch(session: Session, downstream: string -> Fetch<string>): (r: ProxyReply)
    ensures r.LoginRequired? <==> IsEmpty(session)
    // With a session, the panel's body is returned verbatim whatever it
    // holds, and a thrown error is reported.
    ensures !IsEmpty(session) && downstream(session.value).Fetched? ==>
              r == Passthrough(downstream(session.value).value)
    ensures !IsEmpty(session) && downstream(session.value).Failed? ==>
              r == ProxyError(downstream(session.value).error)
  {
    match CookieHeader(session)
    case None => LoginRequired
    case Some(cookie) =>
      Relayed(downstream(cookie))
  }

  /** The endpoint asks the panel at most one thing, with the stored
      cookie, and nothing at all without a session: two panels that agree
      on that one request give the same reply. */
  lemma ProxyAsksOnlyWithCookie(session: Session, d1: string -> Fetch<string>, d2: string -> Fetch<string>)
    requires !IsEmpty(session) ==> d1(session.value) == d2(session.value)
    ensures ProxyFetch(session, d1) == ProxyFetch(session, d2)
  {
  }
}

=== FILE: server.dfy ===
/** The proxy as a whole: the stored session across a sequence of requests.
    The session starts as whatever the cookie file held and changes only
    when a login succeeds. */
module Server {
  import opened Options
  import opened Strings
  import opened CookieStore
  import opened CookieHarvest
  import opened FormFields
  import opened LoginFlow
  import opened Proxy

  /** One request to the proxy, with the panel's answers it would get. */
  datatype Request =
    | LoginCall(req: LoginRequest, panel: Panel)
    | FetchNumbers(numbers: string -> Fetch<string>)
    | FetchSms(sms: string -> Fetch<string>)
    | ShowSession

  /** What the proxy answers. */
  datatype Reply =
    | LoginReply(outcome: LoginOutcome, shown: Option<string>)
    | DataReply(reply: ProxyReply)
    | SessionReply(cookie: Option<string>)
  {
    /** The HTTP status: only a login can answer other than 200. */
    function Status(): int
    {
      if LoginReply? then outcome.Status() else 200
    }
  }

  datatype StepResult = StepResult(reply: Reply, session: Session)

  /** Serving one request against the stored session. */
  function Step(cfg: Config, session: Session, r: Request): (s: StepResult)
    ensures !r.LoginCall? ==> s.session == session
    ensures r.LoginCall? ==> s.session == Login(cfg, r.req, session, r.panel).session
    ensures r.ShowSession? ==> s.reply == SessionReply(Mask(session))
    ensures (r.FetchNumbers? || r.FetchSms?) ==>
              (s.reply == DataReply(LoginRequired) <==> IsEmpty(session))
    // A login answers with its outcome and, on success only, the masked
    // new cookie.
    ensures r.LoginCall? ==>
              var outcome := Attempt(cfg, r.req, r.panel);
              s.reply == LoginReply(outcome, if outcome.Success? then Mask(Some(outcome.cookie)) else None)
    // With a session, a fetch answers the panel's body verbatim, or the
    // error its request threw.
    ensures r.FetchNumbers? && !IsEmpty(session) ==>
              s.reply == DataReply(Relayed(r.numbers(session.value)))
    ensures r.FetchSms? && !IsEmpty(session) ==>
              s.reply == DataReply(Relayed(r.sms(session.value)))
    // 500 exactly when a login threw, 401 exactly when a login got no
    // cookie, 200 otherwise.
    ensures s.reply.Status() == 500 <==> r.LoginCall? && Attempt(cfg, r.req, r.panel).Error?
    ensures s.reply.Status() == 401 <==> r.LoginCall? && Attempt(cfg, r.req, r.panel).CookieMissing?
    ensures s.reply.Status() in {200, 401, 500}
  {
    match r
    case LoginCall(req, panel) =>
      var res := Login(cfg, req, session, panel);
      var shown := if res.outcome.Success? then ShownCookie(res) else None;
      StepResult(LoginReply(res.outcome, shown), res.session)
    case FetchNumbers(d) => StepResult(DataReply(ProxyFetch(session, d)), session)
    case FetchSms(d) => StepResult(DataReply(ProxyFetch(session, d)), session)
    case ShowSession => StepResult(SessionReply(Mask(session)), session)
  }

  /** The stored session after serving `rs` in order. */
  function Run(cfg: Config, session: Session, rs: seq<Request>): Session
  {
    if |rs| == 0 then session
    else Step(cfg, Run(cfg, session, rs[..|rs| - 1]), rs[|rs| - 1]).session
  }

  /** The cookie of the last successful login in `rs`, if any. */
  function LastLogin(cfg: Config, rs: seq<Request>): Option<string>
  {
    if |rs| == 0 then None
    else
      var r := rs[|rs| - 1];
      if r.LoginCall? && Attempt(cfg, r.req, r.panel).Success?
      then Some(Attempt(cfg, r.req, r.panel).cookie)
      else LastLogin(cfg, rs[..|rs| - 1])
  }

  /** The stored session is the cookie of the last successful login, or the
      start-up session when no login succeeded: failed logins, fetches and
      session views never touch it. */
  lemma {:induction false} RunKeepsLastLogin(cfg: Config, start: Session, rs: seq<Request>)
    ensures Run(cfg, start, rs) == if LastLogin(cfg, rs).Some? then LastLogin(cfg, rs) else start
  {
    if |rs| > 0 {
      RunKeepsLastLogin(cfg, start, rs[..|rs| - 1]);
    }
  }

  /** A session loaded from the cookie file at start-up is the session until
      a login succeeds. */
  lemma StartupSessionPersists(cfg: Config, file: Option<string>, rs: seq<Request>)
    requires LastLogin(cfg, rs).None?
    ensures Run(cfg, Load(file), rs) == Load(file)
  {
  }

  /** A panel whose login form has a `user` and a `pass` field and whose
      answer to the POST sets the single header `"; Path=/"`. */
  function EmptyPairPanel(): Panel
  {
    Panel(Fetched([Input(Some("user"), None), Input(Some("pass"), None)]),
          form => Fetched(Response(302, None, ["; Path=/"], "")),
          location => Failed("not requested"))
  }

  /** The form of `EmptyPairPanel` has both fields detected, so the handler
      posts it. */
  lemma EmptyPairSubmits(user: string, pass: string)
    ensures Prepare([Input(Some("user"), None), Input(Some("pass"), None)], user, pass).Submit?
  {
    var inputs := [Input(Some("user"), None), Input(Some("pass"), None)];
    var m := Build(inputs);
    BuildStep(inputs);
    BuildStep(inputs[..1]);
    assert inputs[..1][..0] == [];
    PutKeys([], "user", "");
    PutKeys(Build(inputs[..1]), "pass", "");
    assert Keys(m) == ["user", "pass"];
    assert MatchesAt("user", "user", 0);
    assert ContainsIgnoringCase(Keys(m)[0], UserPatterns[0]);
    assert MatchesAt("pass", "pass", 0);
    assert ContainsIgnoringCase(Keys(m)[1], PassPatterns[0]);
    assert AnyMatches(Keys(m), UserPatterns) && AnyMatches(Keys(m), PassPatterns);
  }

  /** The single header `"; Path=/"` yields the empty cookie. */
  lemma EmptyPairCookie()
    ensures SessionCookieOf(["; Path=/"]) == ""
  {
    var h := "; Path=/";
    assert h[0] == ';';
    assert BeforeFirst(h, ';') == "";
    EmptySessionCookie([h]);
  }

  /** Against `EmptyPairPanel`, the login attempt succeeds with the empty
      cookie. */
  lemma EmptyPairAttempt(cfg: Config, req: LoginRequest)
    ensures Attempt(cfg, req, EmptyPairPanel()) == Success("")
  {
    var panel := EmptyPairPanel();
    var inputs := [Input(Some("user"), None), Input(Some("pass"), None)];
    var user, pass := Credential(req.user, cfg.defaultUser), Credential(req.pass, cfg.defaultPass);
    EmptyPairSubmits(user, pass);
    var prepared := Prepare(inputs, user, pass);
    var answer := panel.post(prepared.form);
    assert answer == Fetched(Response(302, None, ["; Path=/"], ""));
    assert Attempt(cfg, req, panel) == AfterPost(answer, panel.follow);
    EmptyPairCookie();
  }

  /** A login whose only `Set-Cookie` header has nothing before its first
      `;` is reported as a success, yet leaves an empty session: the
      success reply shows `null` for the cookie and the next fetch answers
      "Login required". */
  lemma EmptyCookieLogin(cfg: Config, req: LoginRequest, session: Session, d: string -> Fetch<string>)
    ensures Step(cfg, session, LoginCall(req, EmptyPairPanel())).reply == LoginReply(Success(""), None)
    ensures Step(cfg, Step(cfg, session, LoginCall(req, EmptyPairPanel())).session, FetchSms(d)).reply ==
              DataReply(LoginRequired)
  {
    EmptyPairAttempt(cfg, req);
    var after := Step(cfg, session, LoginCall(req, EmptyPairPanel()));
    assert after.session == Some("");
  }
}

=== FILE: strings.dfy ===
/** The JavaScript string operations the proxy relies on, over `seq<char>`:
    `split` with a one-character separator, `join`, `slice(0, n)`,
    `slice(-n)`, `trim`, and ASCII case-insensitive substring search (what a
    `/…/i` regular expression made of plain letters does). */
module Strings {

  /** Position of the first `c` in `s`. */
  function IndexOf(s: string, c: char): (i: nat)
    requires c in s
    ensures i < |s| && s[i] == c
    ensures forall k :: 0 <= k < i ==> s[k] != c
  {
    if s[0] == c then 0 else IndexOf(s[1..], c) + 1
  }

  /** Any occurrence of `c` with no earlier one is the one `IndexOf` finds. */
  lemma IndexOfIsFirst(s: string, c: char, i: nat)
    requires i < |s| && s[i] == c
    requires forall k :: 0 <= k < i ==> s[k] != c
    ensures IndexOf(s, c) == i
  {
  }

  /** `s.split(c)` for a one-character separator: the pieces between
      consecutive occurrences of `c`, always at least one (`"".split(c)` is
      `[""]`), none of them containing `c`. */
  function Split(s: string, c: char): (parts: seq<string>)
    ensures |parts| >= 1
    ensures forall k :: 0 <= k < |parts| ==> c !in parts[k]
    decreases |s|
  {
    if c !in s then [s]
    else
      var i := IndexOf(s, c);
      [s[..i]] + Split(s[i + 1..], c)
  }

  /** `parts.join(sep)`. */
  function Join(parts: seq<string>, sep: string): string
  {
    if |parts| == 0 then ""
    else if |parts| == 1 then parts[0]
    else parts[0] + sep + Join(parts[1..], sep)
  }

  /** Joining the pieces of a split with the separator gives the string back. */
  lemma {:induction false} JoinSplit(s: string, c: char)
    ensures Join(Split(s, c), [c]) == s
    decreases |s|
  {
    if c in s {
      var i := IndexOf(s, c);
      var rest := Split(s[i + 1..], c);
      JoinSplit(s[i + 1..], c);
      assert Split(s, c)[1..] == rest;
      assert s == s[..i] + [c] + s[i + 1..];
    }
  }

  /** Splitting a join of separator-free pieces gives the pieces back. */
  lemma {:induction false} SplitJoin(parts: seq<string>, c: char)
    requires |parts| >= 1
    requires forall k :: 0 <= k < |parts| ==> c !in parts[k]
    ensures Split(Join(parts, [c]), c) == parts
  {
    if |parts| > 1 {
      var p0 := parts[0];
      var tail := Join(parts[1..], [c]);
      var s := p0 + [c] + tail;
      assert Join(parts, [c]) == s;
      assert s[..|p0|] == p0;
      assert s[|p0|] == c;
      assert forall k :: 0 <= k < |p0| ==> s[k] == p0[k];
      IndexOfIsFirst(s, c, |p0|);
      assert s[|p0| + 1..] == tail;
      assert Split(s, c) == [p0] + Split(tail, c);
      SplitJoin(parts[1..], c);
      assert parts == [p0] + parts[1..];
    }
  }

  /** Splitting a string whose first separator follows `k` gives `k` and
      then the pieces of the rest. */
  lemma SplitAfterFirst(k: string, rest: string, c: char)
    requires c !in k
    ensures Split(k + [c] + rest, c) == [k] + Split(rest, c)
  {
    var s := k + [c] + rest;
    assert s[|k|] == c;
    assert forall j :: 0 <= j < |k| ==> s[j] == k[j];
    IndexOfIsFirst(s, c, |k|);
    assert s[..|k|] == k;
    assert s[|k| + 1..] == rest;
  }

  /** The first piece of `v + tail` is `v` when `v` holds no separator and
      `tail` is empty or starts with one. */
  lemma BeforeFirstOfPiece(v: string, tail: string, c: char)
    requires c !in v
    requires tail == "" || tail[0] == c
    ensures BeforeFirst(v + tail, c) == v
  {
    var w := BeforeFirst(v + tail, c);
    if tail == "" {
      assert v + tail == v;
    } else {
      assert (v + tail)[|v|] == c;
      assert forall j :: 0 <= j < |v| ==> (v + tail)[j] == v[j];
      IndexOfIsFirst(v + tail, c, |v|);
      assert (v + tail)[..|v|] == v;
    }
  }

  /** `s.split(c)[0]`: the text before the first `c`, or all of `s`. */
  function BeforeFirst(s: string, c: char): (r: string)
    ensures r <= s
    ensures c !in r
    ensures |r| < |s| ==> s[|r|] == c
    ensures c !in s ==> r == s
  {
    Split(s, c)[0]
  }

  /** Each element of `q` with `t` put in front of it. */
  function PrefixEach(q: seq<string>, t: string): (r: seq<string>)
    ensures |r| == |q|
    ensures forall k :: 0 <= k < |q| ==> r[k] == t + q[k]
  {
    seq(|q|, k requires 0 <= k < |q| => t + q[k])
  }

  lemma {:induction false} PrefixJoin(q: seq<string>, c: char, t: string)
    requires |q| >= 1
    ensures t + Join(q, [c] + t) == Join(PrefixEach(q, t), [c])
  {
    if |q| > 1 {
      PrefixJoin(q[1..], c, t);
      assert PrefixEach(q, t)[1..] == PrefixEach(q[1..], t);
    }
  }

  /** Joining with a separator `c` followed by padding `t` (as in `"; "`) is
      joining with `c` alone after padding every piece but the first. */
  lemma {:induction false} JoinPadded(parts: seq<string>, c: char, t: string)
    requires |parts| >= 1
    ensures Join(parts, [c] + t) == Join([parts[0]] + PrefixEach(parts[1..], t), [c])
  {
    if |parts| > 1 {
      PrefixJoin(parts[1..], c, t);
      assert ([parts[0]] + PrefixEach(parts[1..], t))[1..] == PrefixEach(parts[1..], t);
    }
  }

  /** Splitting, on `c`, separator-free pieces joined with `c` plus padding
      `t` recovers one piece per original piece, in order, each after the
      first carrying the padding in front. */
  lemma SplitJoinPadded(parts: seq<string>, c: char, t: string)
    requires |parts| >= 1
    requires forall k :: 0 <= k < |parts| ==> c !in parts[k]
    requires c !in t
    ensures |Split(Join(parts, [c] + t), c)| == |parts|
    ensures forall k :: 0 <= k < |parts| ==>
              Split(Join(parts, [c] + t), c)[k] == (if k == 0 then "" else t) + parts[k]
  {
    var padded := [parts[0]] + PrefixEach(parts[1..], t);
    forall k | 0 <= k < |padded|
      ensures c !in padded[k]
    {
      if k > 0 {
        assert padded[k] == t + parts[k];
      }
    }
    JoinPadded(parts, c, t);
    SplitJoin(padded, c);
    forall k | 0 <= k < |parts|
      ensures padded[k] == (if k == 0 then "" else t) + parts[k]
    {
      if k == 0 {
        assert "" + parts[0] == parts[0];
      }
    }
  }

  /** `s.slice(0, n)`: the first `n` characters, or all of a shorter string. */
  function Take(s: string, n: nat): (r: string)
    ensures r <= s
    ensures |r| <= n
    ensures |s| <= n ==> r == s
    ensures n <= |s| ==> |r| == n
  {
    if |s| <= n then s else s[..n]
  }

  /** `s.slice(-n)` for `n > 0`: the last `n` characters, or all of a shorter
      string. */
  function TakeLast(s: string, n: nat): (r: string)
    ensures |r| <= n && |r| <= |s|
    ensures r == s[|s| - |r|..]
    ensures |s| <= n ==> r == s
    ensures n <= |s| ==> |r| == n
  {
    if |s| <= n then s else s[|s| - n..]
  }

  // ---------------------------------------------------------------------
  // String.prototype.trim
  // ---------------------------------------------------------------------

  /** The characters `String.prototype.trim` removes: ECMAScript WhiteSpace
      (tab, vertical tab, form feed, space, no-break space, byte order mark
      and the Unicode space separators) and LineTerminator (line feed,
      carriage return, line and paragraph separators). */
  predicate IsJsSpace(ch: char)
  {
    || ch == '\t' || ch == '\n' || ch == '\U{B}' || ch == '\U{C}' || ch == '\r'
    || ch == ' ' || ch == '\U{A0}' || ch == '\U{1680}'
    || ('\U{2000}' <= ch <= '\U{200A}')
    || ch == '\U{2028}' || ch == '\U{2029}' || ch == '\U{202F}' || ch == '\U{205F}'
    || ch == '\U{3000}' || ch == '\U{FEFF}'
  }

  /** No removable character at either end. */
  predicate IsTrimmed(s: string)
  {
    |s| == 0 || (!IsJsSpace(s[0]) && !IsJsSpace(s[|s| - 1]))
  }

  /** `s` with its leading removable characters dropped. */
  function TrimStart(s: string): (r: string)
    ensures |r| <= |s|
    ensures r == s[|s| - |r|..]
    ensures forall k :: 0 <= k < |s| - |r| ==> IsJsSpace(s[k])
    ensures |r| == 0 || !IsJsSpace(r[0])
  {
    if |s| > 0 && IsJsSpace(s[0]) then TrimStart(s[1..]) else s
  }

  /** `s` with its trailing removable characters dropped. */
  function TrimEnd(s: string): (r: string)
    ensures |r| <= |s|
    ensures r == s[..|r|]
    ensures forall k :: |r| <= k < |s| ==> IsJsSpace(s[k])
    ensures |r| == 0 || !IsJsSpace(r[|r| - 1])
  {
    if |s| > 0 && IsJsSpace(s[|s| - 1]) then TrimEnd(s[..|s| - 1]) else s
  }

  /** Every character of `s` is removable. */
  predicate AllSpace(s: string)
  {
    forall k :: 0 <= k < |s| ==> IsJsSpace(s[k])
  }

  /** `r` is the infix of `s` starting at `i`, and everything of `s` outside
      it is removable. */
  predicate TrimmedAt(s: string, r: string, i: nat)
  {
    && i + |r| <= |s|
    && s[i..i + |r|] == r
    && AllSpace(s[..i])
    && AllSpace(s[i + |r|..])
  }

  /** `s.trim()`: an infix of `s` with no removable character at either end,
      everything outside it being removable. */
  function Trim(s: string): (r: string)
    ensures IsTrimmed(r)
    ensures exists i: nat :: TrimmedAt(s, r, i)
  {
    var a := TrimStart(s);
    var r := TrimEnd(a);
    TrimmedAfterBothEnds(s, a, r);
    r
  }

  /** Dropping the leading removable characters of `s` (leaving `a`) and
      then the trailing ones of `a` (leaving `r`) leaves the infix `r` that
      starts after the leading ones. */
  lemma TrimmedAfterBothEnds(s: string, a: string, r: string)
    requires |a| <= |s| && a == s[|s| - |a|..]
    requires forall k :: 0 <= k < |s| - |a| ==> IsJsSpace(s[k])
    requires |r| <= |a| && r == a[..|r|]
    requires forall k :: |r| <= k < |a| ==> IsJsSpace(a[k])
    ensures TrimmedAt(s, r, |s| - |a|)
  {
    var i := |s| - |a|;
    assert s[i..i + |r|] == a[..|r|];
    AllSpaceSlice(s, 0, i);
    forall j | i + |r| <= j < |s|
      ensures IsJsSpace(s[j])
    {
      assert s[j] == a[j - i];
    }
    AllSpaceSlice(s, i + |r|, |s|);
  }

  /** A run of removable characters, as a slice. */
  lemma AllSpaceSlice(s: string, lo: nat, hi: nat)
    requires lo <= hi <= |s|
    requires forall k :: lo <= k < hi ==> IsJsSpace(s[k])
    ensures AllSpace(s[lo..hi])
  {
    forall k | 0 <= k < hi - lo
      ensures IsJsSpace(s[lo..hi][k])
    {
      assert s[lo..hi][k] == s[lo + k];
    }
  }

  /** Trimming twice is trimming once. */
  lemma TrimIdempotent(s: string)
    ensures Trim(Trim(s)) == Trim(s)
  {
  }

  // ---------------------------------------------------------------------
  // Case-insensitive search
  // ---------------------------------------------------------------------

  /** ASCII lower-casing of one character. For a pattern made only of ASCII
      letters this is exactly the case-insensitive comparison of a `/…/i`
      regular expression without the `u` flag: that comparison never
      equates a character above U+007F with an ASCII one. */
  function Lower(ch: char): (r: char)
    ensures 'A' <= ch <= 'Z' ==> r as int == ch as int + 32
    ensures !('A' <= ch <= 'Z') ==> r == ch
  {
    if 'A' <= ch <= 'Z' then (ch as int + 32) as char else ch
  }

  /** `p` (lower case) occurs in `s` at position `i`, ignoring ASCII case. */
  predicate MatchesAt(s: string, p: string, i: nat)
  {
    i + |p| <= |s| && forall k :: 0 <= k < |p| ==> Lower(s[i + k]) == p[k]
  }

  /** `p` (lower case) occurs somewhere in `s`, ignoring ASCII case: the
      declarative meaning of a regular-expression test for `p`. */
  ghost predicate OccursIgnoringCase(s: string, p: string)
  {
    exists i: nat :: MatchesAt(s, p, i)
  }

  /** The search itself: try each starting position from the left. */
  predicate ContainsIgnoringCase(s: string, p: string)
    decreases |s|
  {
    MatchesAt(s, p, 0) || (|s| > 0 && ContainsIgnoringCase(s[1..], p))
  }

  lemma MatchesAtShift(s: string, p: string, i: nat)
    requires |s| > 0
    ensures MatchesAt(s, p, i + 1) <==> MatchesAt(s[1..], p, i)
  {
  }

  /** The search finds `p` exactly when it occurs. */
  lemma {:induction false} ContainsIgnoringCaseIff(s: string, p: string)
    ensures ContainsIgnoringCase(s, p) <==> OccursIgnoringCase(s, p)
    decreases |s|
  {
    if |s| > 0 {
      ContainsIgnoringCaseIff(s[1..], p);
      if ContainsIgnoringCase(s[1..], p) {
        var i: nat :| MatchesAt(s[1..], p, i);
        MatchesAtShift(s, p, i);
      }
      if OccursIgnoringCase(s, p) {
        var i: nat :| MatchesAt(s, p, i);
        if i > 0 {
          MatchesAtShift(s, p, i - 1);
        }
      }
    } else {
      if OccursIgnoringCase(s, p) {
        var i: nat :| MatchesAt(s, p, i);
        assert i == 0;
      }
    }
  }

  /** `/p1|p2|…/i.test(s)`: some alternative occurs in `s`. */
  predicate MatchesAny(s: string, alternatives: seq<string>)
  {
    exists j :: 0 <= j < |alternatives| && ContainsIgnoringCase(s, alternatives[j])
  }
}
